=== FILE: README.md ===
# PM2040 EEPROM USB drive: a Dafny model

The firmware keeps three 8192-byte EEPROM slots in the top 24 KiB of an
RP2040's flash. Over USB it shows them as a small FAT12 drive holding the
files `EEPROM01.PME`, `EEPROM02.PME` and `EEPROM03.PME`.

- **Reads.** Logical blocks 0-2 are answered from a static table: the boot
  sector, the FAT and the root directory. Every later block is read straight
  from flash, at `BASEEEPROMADDR + (lba - 3) * 512 + offset`.
- **Writes.** Data blocks (block 3 and later) go into a 16384-byte RAM buffer
  in arrival order. A write of the root-directory block (block 2) commits the
  first 8192 buffered bytes to slot 1. It does so only when exactly 8192 bytes
  have arrived and nothing has been committed since boot, and it restarts the
  buffer either way.
- **Reboot.** The main loop restarts the board more than 500 ms after a
  commit, unless the commit was stamped at millisecond 0.
- **Other commands.** START STOP UNIT can eject the medium for good. Test Unit
  Ready then reports NOT READY. Every SCSI command without its own callback,
  except PREVENT ALLOW MEDIUM REMOVAL, fails with ILLEGAL REQUEST.
- **Build script.** `fat.py` generates the FAT bytes of the table.

## Modules

The modules follow the program's structure:

- `Bytes`: C's fixed-width integers, with unsigned 32-bit subtraction and the
  `(int32_t)` cast written out explicitly.
- `Flash`: `writeEEPROMToFlash` over a NOR-flash memory.
  - Erasing sets whole 4096-byte sectors to 0xFF.
  - Programming whole 256-byte pages can only clear bits.
  - Both run with interrupts disabled.
- `Layout` and `Image`: the build constants and the static `msc_disk` table,
  byte for byte.
- `Fat12`: a host's reading of a FAT12 volume, following the Microsoft FAT
  Specification.
  - Section 3: the BIOS parameter block and sector arithmetic.
  - Section 4: 12-bit FAT entries and cluster chains.
  - Section 6: 32-byte directory entries.

  This is the independent reference against which the table is checked.
- `Volume`: what a host finds in the table.
  - Cluster 2 sits at block 3.
  - The three files are chains 2-5, 6-9 and 10-13.
  - Byte `i` of file `k` therefore lies `8192 * k + i` bytes past block 3.
- `FatGen`: `fat.py`'s `printFAT` and its driver loop. The pairs it packs
  decode back to the values it was given, and its output is the table's FAT.
  The script's masks and shifts are written as integer remainders, quotients
  and sums by powers of two, which agree with them on the non-negative values
  it packs; this equivalence is not itself proved.
- `MscDisk`: the device state (the firmware's globals plus flash) and the
  callbacks for:
  - Test Unit Ready, READ CAPACITY and START STOP UNIT;
  - READ(10) and WRITE(10);
  - the command passthrough.
- `Reboot`: the restart condition of `main`'s loop, with the clock as a
  parameter.
- `Session`: runs of host commands, with these properties:
  - at most one commit per boot;
  - flash changes only through that commit;
  - the eject is sticky;
  - data writes accumulate in arrival order, whatever block they address;
  - a save lands in slot 1, which file 0 reads back;
  - for a save at a non-zero time, the restart comes 501 ms after it.

The sense codes follow section 4.5.6 of SCSI Primary Commands-3:
- NOT READY is 0x02 with ASC/ASCQ 0x3A/0x00 (medium not present).
- ILLEGAL REQUEST is 0x05 with 0x20/0x00 (invalid command operation code).

### Where the table's bytes and its descriptions disagree

The model follows the bytes.

- **Sectors per cluster.** The comment on the boot sector says 1 sector per
  cluster, but byte 13 is 4 (`code/msc_disk.c:60`, `71`).
- **Total sectors.** The same comment says `fat12_sector_num_16 =
  DISK_BLOCK_NUM`, which is 128 (`code/msc_disk.c:51`, `59`). Bytes 19-20,
  however, decode little-endian to 0x2000 (`code/msc_disk.c:75`), while READ
  CAPACITY reports the 128 blocks (`code/msc_disk.c:201`).
  `Volume.SectorCounts` states that the two differ and that both counts
  select FAT12. Only 128 fits the one-sector FAT, which holds entries 0-340:
  0x2000 sectors would make 2047 clusters, numbered up to 2048.

### Hazards kept as preconditions

The firmware checks none of these bounds:

- A data write appends at `offsetCnt` with no bound check. `MscDisk.Write10`
  requires `offsetCnt + bufsize <= 16384` (`code/msc_disk.c:258`, `270-271`).
  In `Session` a write past the buffer ends the run as `Undefined`.
- A read of blocks 0-2 copies `bufsize` bytes from `offset` inside its
  512-byte block. `MscDisk.Read10` requires `offset + bufsize <= 512`.
- A flash read must stay inside the 16 MiB XIP window.

`MscDisk.HostReadsDefined` shows that every one-block read within the
reported capacity meets these conditions. For flash reads this rests on the
modelled flash size: the reported capacity reaches 39424 bytes past the end
of flash, so it needs `PICO_FLASH_SIZE_BYTES + 39424 <= 16 MiB`
(`MscDisk.CapacityFitsWindow`).

## Model

| member | source | states |
|---|---|---|
| Bytes.SubU32 | code/main.c:44 | `now - fullUSBWriteDone` on `uint32_t` is the plain difference when no wrap happened, and the difference plus 2^32 when the clock wrapped past the stamp |
| Bytes.ToI32 | code/msc_disk.c:285 | The `(int32_t)` cast of the returned count keeps counts below 2^31 and maps larger ones to negatives, congruent modulo 2^32 |
| Flash.SaveAndDisableInterrupts | code/main.c:18 | Interrupts are off afterwards, and the previous enable state is returned |
| Flash.RestoreInterrupts | code/main.c:24 | The saved enable state is put back, and memory is untouched |
| Flash.RangeErase | code/main.c:20 | Erasing a sector-aligned range leaves every byte in it 0xFF and every byte outside it unchanged |
| Flash.RangeProgram | code/main.c:21 | Programming a page-aligned range ANDs each byte with its data byte and leaves every other byte unchanged |
| Flash.WriteEepromToFlash | code/main.c:15-25 | Erase then program of `(flashAddr, eepromSize)` leaves exactly the first `eepromSize` buffer bytes in that range, changes nothing outside it, and restores the interrupt state |
| Flash.EraseThenProgram | code/main.c:20-21 | Programming a freshly erased range leaves every byte of it equal to the data |
| Flash.ProgramWithoutEraseCanFail | code/main.c:20-21 | Without the erase, programming can fail to store the data, which is why the erase comes first |
| Volume.BootSector | code/msc_disk.c:66-81 | The boot sector decodes to 512 B/sector, 4 sectors/cluster, 1 reserved sector, 1 FAT of 1 sector and 16 root entries, which puts the data region and cluster 2 at block 3, the first flash-backed block; it ends 0x55 0xAA |
| Volume.SectorCounts | code/msc_disk.c:75-77 | The declared total of 0x2000 sectors differs from the 128 blocks reported; both give fewer than 4085 clusters, so both select FAT12; the one-sector FAT holds entries 0-340, enough for the 31 clusters of 128 sectors but not for the 2047 clusters of 0x2000 sectors |
| Volume.RootDirectory | code/msc_disk.c:141-156 | Entry 0 is the volume label, and entries 1-3 are archive files of 8192 bytes starting at clusters 2, 6 and 10 |
| Volume.FatEntries | code/msc_disk.c:127-137 | FAT entries 2-13 decode to the links 2→3→4→5→EOC, 6→7→8→9→EOC and 10→11→12→13→EOC |
| Volume.FatChains | code/msc_disk.c:127-156 | Following the FAT from each file's first cluster visits four consecutive clusters and ends; four 2048-byte clusters are the declared 8192-byte size |
| Volume.FileByteLocation | code/msc_disk.c:241 | The block a host computes for byte i of file k is flash-backed, and lies 8192·k + i bytes past the start of block 3 |
| Image.TableShape | code/msc_disk.c:56-160 | The table is five 512-byte blocks: the boot sector ending 0x55 0xAA, the FAT bytes followed by free entries, four directory entries followed by zeros, and two all-zero blocks the initialiser leaves out |
| FatGen.PackPair | fat.py:19-28 | One loop iteration emits exactly three bytes, whose decoding `FatGen.PackPairDecodes` states |
| FatGen.PackPairDecodes | fat.py:19-28 | The three bytes of one loop iteration decode as FAT entries 0 and 1 to the current and next cluster values (low 12 bits), with the odd entry 0xFFF on the last pair |
| FatGen.Pairs | fat.py:18-33 | The while loop emits whole triples only, with no partial entry pair |
| FatGen.PairsLength | fat.py:18-33 | The loop from iteration j emits one triple for every two remaining clusters, rounding up |
| FatGen.PrintFat | fat.py:14-35 | printFAT emits clusterPerFile / 2 triples |
| FatGen.PairsLayout | fat.py:18-33 | Iteration j + 2p of printFAT's loop writes output bytes 3p to 3p+2 |
| FatGen.PairsDecode | fat.py:18-33 | Entry pair p of printFAT's output decodes to start + j + 2p and start + j + 2p + 1, or end-of-chain on the final pair |
| FatGen.PrintFatDecodes | fat.py:14-35 | Each pair of printFAT(startAddr) decodes to the cluster values it was given, ending in the end-of-chain marker |
| FatGen.DriverStarts | fat.py:38-45 | The script calls printFAT maxfiles times, the i-th time with 3 + i·clusterPerFile |
| FatGen.PrintAll | fat.py:38-45 | The script's calls together print clusterPerFile / 2 triples per start value |
| FatGen.ScriptOutput | fat.py:38-45 | Everything the script prints is 18 bytes |
| FatGen.StartsFrom | fat.py:41-45 | The driver loop's start values advance by clusterPerFile, once for each remaining file |
| FatGen.DriverShape | fat.py:6-12 | clusterPerFile is 4, printFAT emits 2 triples per file, and the start values are 3, 7 and 11 |
| FatGen.ScriptMatchesTable | fat.py:38-45 | The table's FAT block is the 0xF8 0xFF 0xFF header followed by exactly the script's output |
| FatGen.ScriptChains | fat.py:38-45 | After the header, the script's output gives each file the chain of four consecutive clusters from its start cluster |
| MscDisk.Boot | code/msc_disk.c:40-47 | After reset the buffer count is 0, no commit has happened, the time stamp is 0 and the medium is not ejected |
| MscDisk.TestUnitReady | code/msc_disk.c:180-192 | Ready exactly when not ejected; when ejected the sense becomes NOT READY 0x3A/0x00 and nothing else changes |
| MscDisk.Capacity | code/msc_disk.c:196-203 | 128 blocks of 512 bytes, the sector size the boot sector declares |
| MscDisk.StartStop | code/msc_disk.c:208-227 | Always succeeds; ejected afterwards iff it was ejected before or this is an unload (load_eject with start clear); nothing else changes |
| MscDisk.BlockOffset | code/msc_disk.c:241 | The offset is congruent to `(lba - 3) * 512` modulo 2^32, as the `uint32_t` product wraps, and equals it when it does not wrap |
| MscDisk.CapacityFitsWindow | code/msc_disk.c:34-53 | The reported capacity ends 39424 bytes past the end of flash, which lies inside the 16 MiB XIP window for the modelled 2 MiB flash |
| MscDisk.Read10 | code/msc_disk.c:231-247 | Blocks 0-2 return table bytes `offset .. offset + bufsize`; later blocks return flash bytes from slot 1's start + (lba - 3)·512 + offset; the count returned is bufsize |
| MscDisk.FlashBytes | code/msc_disk.c:241-244 | The copy from flash holds exactly the bytes at consecutive offsets from the start address |
| MscDisk.HostReadsDefined | code/msc_disk.c:238-244 | Every read inside the reported capacity and inside one block copies existing bytes, given the flash-size margin of `MscDisk.CapacityFitsWindow` |
| MscDisk.Write10 | code/msc_disk.c:257-286 | Data blocks append exactly their bytes at offsetCnt and advance it by their length; block 2 commits buffer bytes 0..8191 to slot 1 and stamps the time iff offsetCnt is 8192 and no commit happened, with the interrupt state restored afterwards; it resets offsetCnt to 0 either way; blocks 0-1 change nothing; the count is returned |
| MscDisk.Scsi | code/msc_disk.c:291-334 | PREVENT ALLOW MEDIUM REMOVAL returns 0 and changes nothing; any other command sets ILLEGAL REQUEST 0x20/0x00 and returns -1; the result never exceeds the host's buffer size |
| Reboot.Elapsed | code/main.c:44 | The unsigned difference added to the stamp gives the clock back modulo 2^32 |
| Reboot.ShouldReset | code/main.c:43-44 | No restart while the stamp is 0; otherwise restart iff more than 500 ms have elapsed, counting across a wrap of the clock |
| Reboot.StrictBound | code/main.c:11 | For every non-zero stamp, the clock 500 ms later (modulo 2^32) gives no restart and the clock 501 ms later does, also across a wrap |
| Reboot.ShiftInvariant | code/main.c:44 | Only the elapsed time decides, not the absolute clock value |
| Session.Run | code/msc_disk.c:163-334 | The callbacks applied in arrival order keep the buffer valid and never clear didFlash or ejected |
| Session.Step | code/msc_disk.c:180-334 | One callback keeps the buffer valid and never clears didFlash or ejected; a commit sets didFlash; the interrupt state is the same after every callback; without a commit, flash and the stamp are unchanged; only an unload ejects |
| Session.AtMostOneCommit | code/msc_disk.c:276-279 | A run commits at most once, and never after a commit has happened |
| Session.NoCommitNoChange | code/msc_disk.c:276-279 | A run without a commit leaves flash and `fullUSBWriteDone` as they were |
| Session.EjectIsSticky | code/msc_disk.c:185-189 | Once ejected, every later Test Unit Ready fails with NOT READY 0x3A/0x00, whatever comes in between |
| Session.EjectNeedsUnload | code/msc_disk.c:213-223 | A run that ends ejected, from a state that was not ejected, contains a START STOP UNIT with load_eject set and start clear |
| Session.AppendTwice | code/msc_disk.c:268-271 | Two data writes in a row act as one write of their concatenation, whatever blocks and offsets they name |
| Session.DataWritesAccumulate | code/msc_disk.c:268-271 | Any run of data writes acts as one write of all its bytes in arrival order |
| Session.SaveSequence | code/msc_disk.c:264-286 | From boot, data writes then a directory write commit iff the data totalled 8192 bytes; after a commit, slot 1 holds those bytes and the stamp is the directory write's time; the count is 0 afterwards either way |
| Session.OffByOneNoCommit | code/msc_disk.c:273-282 | A directory write with 8191 or 8193 buffered bytes leaves flash, the stamp and didFlash unchanged and resets the count; with 8192 it commits and stamps the time |
| Session.CommitAtZeroNeverResets | code/main.c:43 | A save completing at millisecond 0 sets didFlash, yet the board never restarts, whatever the clock reads |
| Session.FileReadsSlot | code/msc_disk.c:241 | Reading byte i of file k where a FAT12 host looks for it returns the flash byte 8192·k + i past the start of slot 1 |
| Session.SavedDataReadsBackAsFirstFile | code/msc_disk.c:277 | Whichever file the host saved, afterwards file 0 reads back the saved bytes and files 1 and 2 read their old slot contents |
| Session.SaveThenRestart | code/main.c:43-44 | After a save stamped at a non-zero time t, the board restarts at clock (t + 501) mod 2^32 and not at (t + 500) mod 2^32, also across a wrap |
| Session.NoSaveNoRestart | code/main.c:43 | A run from boot without a commit never restarts the board |

## Left out

- The USB stack is not modelled: `tusb_init`, `tud_task`, `board_init`, and the empty mount, unmount, suspend and resume callbacks. The model starts where the stack calls a callback of this drive.
- `tud_msc_inquiry_cb` is not modelled. It copies constant strings and holds no state.
- `tud_msc_is_writable_cb` is not modelled. It always answers true.
- `softwareReset` (arming the watchdog and spinning) is not modelled. `Reboot.ShouldReset` models only the decision to call it.
- The millisecond clock `to_ms_since_boot` is a parameter `now` of each command.
- The SDK's flash routines are not part of this model. `Flash` gives them the NOR-flash behaviour they drive, with the alignment the SDK demands.
- `PICO_FLASH_SIZE_BYTES` comes from the board definition, which is not part of this model. It is fixed at 2 MiB, so slot 1 starts 24576 bytes below that. Besides sector alignment, only `MscDisk.CapacityFitsWindow`, and through it `MscDisk.HostReadsDefined`, depends on the value: they hold for any flash of at most 16 MiB - 39424 bytes, so not for a 16 MiB chip, where blocks 51-127 would read past the XIP window.
- Flash beyond the physical chip is not modelled. Reads of high blocks through the XIP window return whatever the flash memory function holds there. The model does not say how the XIP hardware mirrors it.
- The byte copy of `Scsi` into the host buffer is not modelled. The response pointer is always NULL, so it never runs.
- The `printFAT` print formatting is left out. Only the byte values it prints are modelled.
- MscDisk.Write10: states no result when a data write overruns `writeBuffer`. In C that is undefined behaviour, so the write requires that the bytes fit.
- MscDisk.Read10: states no result for a table read that crosses the end of its 512-byte block, or for a flash read outside the XIP window. Such a read copies bytes the model does not define.

=== FILE: bytes.dfy ===
/** Machine words and byte-sequence helpers shared by the firmware model.
    C's fixed-width integers are unbounded here, so every truncation the
    firmware relies on is written out as an explicit function. */
module Bytes {

  const Two32: nat := 0x1_0000_0000

  /** A C `uint8_t`: flash, the disk image and transfer buffers are byte
      arrays. */
  type Byte = x: nat | x < 0x100

  /** A C `uint32_t`. */
  type U32 = x: nat | x < 0x1_0000_0000

  /** A C `uint16_t`. */
  type U16 = x: nat | x < 0x1_0000

  /** A C `int32_t`. */
  type I32 = x: int | -0x8000_0000 <= x < 0x8000_0000

  /** Unsigned 32-bit subtraction: C computes `a - b` on `uint32_t` modulo 2^32. */
  function SubU32(a: U32, b: U32): (r: U32)
    ensures a >= b ==> r == a - b
    ensures a < b ==> r == a + Two32 - b
  {
    (a - b) % Two32
  }

  /** The implementation-defined conversion `(int32_t) x` of a `uint32_t`, which
      two's-complement targets such as the RP2040 compiler perform by wrapping. */
  function ToI32(x: U32): (r: I32)
    ensures x < 0x8000_0000 ==> r == x
    ensures x >= 0x8000_0000 ==> r < 0
    ensures (r + Two32) % Two32 == x
  {
    if x < 0x8000_0000 then x else x - Two32
  }

  /** `n` zero bytes: the implicit tail of a partially initialised C array. */
  function Zeros(n: nat): (r: seq<Byte>)
    ensures |r| == n
    ensures forall i :: 0 <= i < n ==> r[i] == 0
  {
    seq(n, _ => 0)
  }

  /** Little-endian 16-bit field at byte `i`. */
  function LE16(b: seq<Byte>, i: nat): (r: nat)
    requires i + 2 <= |b|
    ensures r < 0x1_0000
  {
    var lo: nat := b[i];
    var hi: nat := b[i + 1];
    lo + 256 * hi
  }

  /** Little-endian 32-bit field at byte `i`. */
  function LE32(b: seq<Byte>, i: nat): (r: nat)
    requires i + 4 <= |b|
    ensures r < Two32
  {
    LE16(b, i) + 0x1_0000 * LE16(b, i + 2)
  }
}

=== FILE: fat12.dfy ===
/** How a host reads a FAT12 volume, following the Microsoft FAT
    Specification: the BIOS parameter block (section 3), FAT12 entries and
    cluster chains (section 4) and 32-byte directory entries (section 6).
    This is the independent reference against which the drive's static
    table is checked. */
module Fat12 {
  import opened Bytes

  /** The BPB fields a FAT12 host consults (section 3.1 and 3.2). */
  datatype Bpb = Bpb(
    bytsPerSec: nat,
    secPerClus: nat,
    rsvdSecCnt: nat,
    numFats: nat,
    rootEntCnt: nat,
    totSec16: nat,
    media: Byte,
    fatSz16: nat,
    totSec32: nat)

  /** Reads the BPB from a boot sector at the offsets section 3.1 gives. */
  function ParseBpb(b: seq<Byte>): (bpb: Bpb)
    requires |b| >= 36
    ensures bpb.secPerClus == b[13] && bpb.numFats == b[16] && bpb.media == b[21]
    ensures bpb.bytsPerSec < 0x1_0000 && bpb.rootEntCnt < 0x1_0000 && bpb.totSec16 < 0x1_0000
  {
    Bpb(LE16(b, 11), b[13], LE16(b, 14), b[16], LE16(b, 17),
        LE16(b, 19), b[21], LE16(b, 22), LE32(b, 32))
  }

  /** A BPB from which sector arithmetic is defined. */
  predicate Usable(bpb: Bpb)
  {
    bpb.bytsPerSec > 0 && bpb.secPerClus > 0
  }

  /** Section 3.5: a non-zero 16-bit count wins over the 32-bit one. */
  function TotalSectors(bpb: Bpb): (n: nat)
    ensures bpb.totSec16 != 0 ==> n == bpb.totSec16
    ensures bpb.totSec16 == 0 ==> n == bpb.totSec32
  {
    if bpb.totSec16 != 0 then bpb.totSec16 else bpb.totSec32
  }

  /** Sectors occupied by the fixed-size FAT12 root directory (section 3.5). */
  function RootDirSectors(bpb: Bpb): (n: nat)
    requires Usable(bpb)
    ensures n * bpb.bytsPerSec >= bpb.rootEntCnt * 32
    ensures n * bpb.bytsPerSec < bpb.rootEntCnt * 32 + bpb.bytsPerSec
  {
    (bpb.rootEntCnt * 32 + bpb.bytsPerSec - 1) / bpb.bytsPerSec
  }

  /** The first sector of the data region, which holds cluster 2. */
  function FirstDataSector(bpb: Bpb): (n: nat)
    requires Usable(bpb)
    ensures n >= bpb.rsvdSecCnt + bpb.numFats * bpb.fatSz16
  {
    bpb.rsvdSecCnt + bpb.numFats * bpb.fatSz16 + RootDirSectors(bpb)
  }

  /** First sector of data cluster `n` (section 6.7). */
  function ClusterToSector(bpb: Bpb, n: nat): (s: nat)
    requires Usable(bpb) && n >= 2
    ensures s >= FirstDataSector(bpb)
    ensures s == FirstDataSector(bpb) + (n - 2) * bpb.secPerClus
  {
    FirstDataSector(bpb) + (n - 2) * bpb.secPerClus
  }

  /** Data clusters on the volume; section 3.5 calls it FAT12 below 4085. */
  function CountOfClusters(bpb: Bpb): nat
    requires Usable(bpb)
  {
    if TotalSectors(bpb) >= FirstDataSector(bpb)
    then (TotalSectors(bpb) - FirstDataSector(bpb)) / bpb.secPerClus
    else 0
  }

  /** FAT12 entries carry 12 bits; values from 0xFF8 up end a chain (section 4). */
  const EndOfChain: nat := 0xFFF

  predicate IsEndOfChain(v: nat)
  {
    0xFF8 <= v
  }

  /** Entry `n` lives in the 16-bit little-endian word at byte n + n/2. */
  predicate HasEntry(fat: seq<Byte>, n: nat)
  {
    n + n / 2 + 2 <= |fat|
  }

  /** Section 4.2: the little-endian word at n + n/2 holds entry `n` in its low
      12 bits when `n` is even and in its high 12 bits when `n` is odd; masks
      and shifts are remainders and quotients by powers of two. */
  function FatEntry(fat: seq<Byte>, n: nat): (v: nat)
    requires HasEntry(fat, n)
    ensures v < 0x1000
  {
    var o := n + n / 2;
    var lo: nat := fat[o];
    var hi: nat := fat[o + 1];
    if n % 2 == 0 then lo + 256 * (hi % 16) else lo / 16 + 16 * hi
  }

  /** The outcome of following a cluster chain. */
  datatype Chain = Complete(clusters: seq<nat>) | Broken

  /** Follows the chain from cluster `c` until an end-of-chain entry; a chain
      that leaves the FAT, reaches a reserved value or outlasts `fuel` clusters
      is Broken. */
  function FollowChain(fat: seq<Byte>, c: nat, fuel: nat): (r: Chain)
    decreases fuel
    ensures r.Complete? ==> 1 <= |r.clusters| <= fuel && r.clusters[0] == c
    ensures r.Complete? ==> forall i :: 0 <= i < |r.clusters| ==> r.clusters[i] >= 2
  {
    if fuel == 0 || c < 2 || !HasEntry(fat, c) then Broken
    else
      var next := FatEntry(fat, c);
      if IsEndOfChain(next) then Complete([c])
      else match FollowChain(fat, next, fuel - 1)
        case Broken => Broken
        case Complete(rest) => Complete([c] + rest)
  }

  /** A FAT12 volume has fewer than 4085 clusters, so no acyclic chain is longer. */
  const MaxChain: nat := 4085

  /** The fields of a 32-byte directory entry (section 6.1). */
  datatype DirEntry = DirEntry(name: seq<Byte>, attr: Byte, firstCluster: nat, fileSize: nat)

  const AttrVolumeId: Byte := 0x08
  const AttrArchive: Byte := 0x20

  /** Directory entry `i` of a directory block. */
  function ParseDirEntry(dir: seq<Byte>, i: nat): (e: DirEntry)
    requires 32 * (i + 1) <= |dir|
  {
    var o := 32 * i;
    DirEntry(dir[o .. o + 11], dir[o + 11], LE16(dir, o + 20) * 0x1_0000 + LE16(dir, o + 26), LE32(dir, o + 28))
  }
}

=== FILE: fatgen.dfy ===
/** The build-time generator of the FAT table (fat.py): it packs the cluster
    chains of the three files two 12-bit entries to three bytes, with an
    end-of-chain marker in the last entry of each file.  Its output, after the
    media header, is the table block 1 serves. */
module FatGen {
  import opened Bytes
  import opened Image
  import opened Fat12
  import opened Layout
  import opened Volume

  const MaxFiles: nat := 3
  const SizeInBytes: nat := 8192
  const SectorsPerCluster: nat := 4
  const BytesPerSector: nat := 512
  const BytesPerClusterGen: nat := BytesPerSector * SectorsPerCluster

  /** `int(sizeInBytes / bytesPerCluster)`. */
  const ClusterPerFile: nat := SizeInBytes / BytesPerClusterGen

  /** Python's masks only ever keep bits 0-11 of an address, so an address
      contributes exactly its value modulo 4096. */
  function Low12(x: nat): (r: nat)
    ensures r < 0x1000
    ensures x < 0x1000 ==> r == x
  {
    x % 0x1000
  }

  /** One iteration of printFAT's loop (fat.py lines 22-28): entry values `cur`
      and `next` packed into three bytes, the odd entry replaced by 0xFFF on the
      final pair.  Python's `& 0xFF`, `(x & 0xF) << 4`, `(x & 0xF00) >> 8` and
      `(x & 0xFF0) >> 4` are `% 256`, `% 16 * 16`, `% 4096 / 256` and
      `% 4096 / 16` on non-negative integers, and `|` of disjoint bit fields
      is `+`. */
  function PackPair(cur: nat, next: nat, last: bool): (t: seq<Byte>)
    ensures |t| == 3
  {
    var c := Low12(cur);
    var n := Low12(next);
    var hiNibble: nat := c / 256;
    assert hiNibble < 16;
    var byte0: Byte := c % 256;
    var byte1: Byte := if last then 0xF0 + hiNibble else (n % 16) * 16 + hiNibble;
    var byte2: Byte := if last then 0xFF else n / 16;
    [byte0, byte1, byte2]
  }

  /** Decoding the three bytes as FAT entries 0 and 1 gives the two values
      back, the second being end-of-chain on the final pair. */
  lemma PackPairDecodes(cur: nat, next: nat, last: bool)
    ensures HasEntry(PackPair(cur, next, last), 0) && HasEntry(PackPair(cur, next, last), 1)
    ensures FatEntry(PackPair(cur, next, last), 0) == Low12(cur)
    ensures FatEntry(PackPair(cur, next, last), 1) == if last then EndOfChain else Low12(next)
  {
    var t := PackPair(cur, next, last);
    var c := Low12(cur);
    var n := Low12(next);
    assert c == 256 * (c / 256) + c % 256;
    assert n == 16 * (n / 16) + n % 16;
    var lo: nat := t[1];
    assert lo % 16 == c / 256;
    assert last ==> lo / 16 == 0xF;
    assert !last ==> lo / 16 == n % 16;
  }

  /** Pair p of a packed FAT fragment holds entries 2p and 2p + 1 with the
      given values. */
  predicate PairAt(r: seq<Byte>, p: nat, even: nat, odd: nat)
  {
    && HasEntry(r, 2 * p) && HasEntry(r, 2 * p + 1)
    && FatEntry(r, 2 * p) == even && FatEntry(r, 2 * p + 1) == odd
  }

  /** The odd entry printFAT writes in pair p of iteration j onwards. */
  function OddValue(start: nat, j: nat, cpf: nat, p: nat): nat
  {
    if j + 2 * p == cpf - 2 then EndOfChain else Low12(start + j + 2 * p + 1)
  }

  /** printFAT's loop from iteration `j` on: pairs (start + j, start + j + 1),
      (start + j + 2, start + j + 3), ... while j < cpf, the odd entry of the
      pair at j == cpf - 2 being the end-of-chain marker instead. */
  function Pairs(start: nat, j: nat, cpf: nat): (r: seq<Byte>)
    decreases cpf - j
    ensures |r| % 3 == 0
  {
    if j >= cpf then []
    else PackPair(start + j, start + j + 1, j == cpf - 2) + Pairs(start, j + 2, cpf)
  }

  /** printFAT's loop runs once for every two clusters, rounding up, and
      emits three bytes each time. */
  lemma {:induction false} PairsLength(start: nat, j: nat, cpf: nat)
    ensures |Pairs(start, j, cpf)| == if j < cpf then 3 * ((cpf - j + 1) / 2) else 0
    decreases cpf - j
  {
    if j < cpf {
      PairsLength(start, j + 2, cpf);
    }
  }

  /** Iteration j + 2p of printFAT's loop writes bytes 3p .. 3p + 2 of the
      output from iteration j on. */
  lemma {:induction false} PairsLayout(start: nat, j: nat, cpf: nat, p: nat)
    requires j + 2 * p < cpf
    ensures 3 * p + 3 <= |Pairs(start, j, cpf)|
    ensures Pairs(start, j, cpf)[3 * p .. 3 * p + 3]
         == PackPair(start + j + 2 * p, start + j + 2 * p + 1, j + 2 * p == cpf - 2)
    decreases cpf - j
  {
    var head := PackPair(start + j, start + j + 1, j == cpf - 2);
    var rest := Pairs(start, j + 2, cpf);
    assert Pairs(start, j, cpf) == head + rest;
    if p > 0 {
      var q := p - 1;
      PairsLayout(start, j + 2, cpf, q);
      TripleAfterHead(head, rest, q);
      assert start + (j + 2) + 2 * q == start + j + 2 * p;
    }
  }

  /** Behind a three-byte head, triple q of the rest is triple q + 1 of the whole. */
  lemma TripleAfterHead(head: seq<Byte>, rest: seq<Byte>, q: nat)
    requires |head| == 3 && 3 * q + 3 <= |rest|
    ensures (head + rest)[3 * (q + 1) .. 3 * (q + 1) + 3] == rest[3 * q .. 3 * q + 3]
  {
  }

  /** Entries 2p and 2p + 1 of a FAT are entries 0 and 1 of its bytes 3p .. 3p + 2. */
  lemma EntriesOfTriple(r: seq<Byte>, p: nat)
    requires 3 * p + 3 <= |r|
    ensures HasEntry(r, 2 * p) && HasEntry(r, 2 * p + 1)
    ensures FatEntry(r, 2 * p) == FatEntry(r[3 * p .. 3 * p + 3], 0)
    ensures FatEntry(r, 2 * p + 1) == FatEntry(r[3 * p .. 3 * p + 3], 1)
  {
    assert (2 * p) / 2 == p && (2 * p + 1) / 2 == p;
  }

  /** Decoding entry pair p of printFAT's output gives back the two values it
      was asked to write: start + j + 2p, and start + j + 2p + 1 or the
      end-of-chain marker on the final pair. */
  lemma PairsDecode(start: nat, j: nat, cpf: nat, p: nat)
    requires j + 2 * p < cpf
    ensures PairAt(Pairs(start, j, cpf), p, Low12(start + j + 2 * p), OddValue(start, j, cpf, p))
  {
    PairsLayout(start, j, cpf, p);
    EntriesOfTriple(Pairs(start, j, cpf), p);
    PackPairDecodes(start + j + 2 * p, start + j + 2 * p + 1, j + 2 * p == cpf - 2);
  }

  /** `printFAT(startAddr)`: the bytes for one file's chain. */
  function PrintFat(startAddr: nat): (r: seq<Byte>)
    ensures |r| == 3 * (ClusterPerFile / 2)
  {
    PairsLength(startAddr, 0, ClusterPerFile);
    Pairs(startAddr, 0, ClusterPerFile)
  }

  /** The start values the script passes to printFAT: 3, then `maxfiles - 1`
      more, each `clusterPerFile` past the previous one. */
  function DriverStarts(): (starts: seq<nat>)
    ensures |starts| == MaxFiles
    ensures forall i :: 0 <= i < |starts| ==> starts[i] == 3 + i * ClusterPerFile
  {
    [3] + StartsFrom(3 + ClusterPerFile, MaxFiles - 1)
  }

  function StartsFrom(curCnt: nat, remaining: nat): (starts: seq<nat>)
    decreases remaining
    ensures |starts| == remaining
    ensures forall i :: 0 <= i < remaining ==> starts[i] == curCnt + i * ClusterPerFile
  {
    if remaining == 0 then [] else [curCnt] + StartsFrom(curCnt + ClusterPerFile, remaining - 1)
  }

  /** Concatenated output of printFAT over a list of start values. */
  function PrintAll(starts: seq<nat>): (r: seq<Byte>)
    ensures |r| == 3 * (ClusterPerFile / 2) * |starts|
  {
    if starts == [] then [] else PrintFat(starts[0]) + PrintAll(starts[1..])
  }

  /** Everything the script prints, in order. */
  function ScriptOutput(): (r: seq<Byte>)
    ensures |r| == 18
  {
    DriverShape();
    PrintAll(DriverStarts())
  }

  /** Each file needs four clusters, printFAT emits two pairs for it, and the
      start values are 3, 7 and 11. */
  lemma DriverShape()
    ensures ClusterPerFile == 4
    ensures |PrintFat(3)| == 6
    ensures DriverStarts() == [3, 7, 11]
    ensures forall i :: 0 <= i < |DriverStarts()| ==> DriverStarts()[i] == 3 + i * ClusterPerFile
  {
    var s := StartsFrom(3 + ClusterPerFile, MaxFiles - 1);
    assert s == [7, 11];
  }

  /** The table's FAT block is the media byte 0xF8 and reserved entry 0xFFF,
      which the script does not print, followed by exactly what it prints. */
  lemma ScriptMatchesTable()
    ensures FatBytes == [0xF8, 0xFF, 0xFF] + ScriptOutput()
  {
    DriverShape();
    PrintFatTwoPairs(3);
    PrintFatTwoPairs(7);
    PrintFatTwoPairs(11);
    assert PackPair(3, 4, false) == [0x03, 0x40, 0x00];
    assert PackPair(5, 6, true) == [0x05, 0xF0, 0xFF];
    assert PackPair(7, 8, false) == [0x07, 0x80, 0x00];
    assert PackPair(9, 10, true) == [0x09, 0xF0, 0xFF];
    assert PackPair(11, 12, false) == [0x0B, 0xC0, 0x00];
    assert PackPair(13, 14, true) == [0x0D, 0xF0, 0xFF];
    assert PrintAll([3, 7, 11]) == PrintFat(3) + PrintFat(7) + PrintFat(11) by {
      assert [3, 7, 11][1..] == [7, 11] && [7, 11][1..] == [11];
    }
  }

  /** With four clusters per file printFAT runs twice, the second time as the
      final pair. */
  lemma PrintFatTwoPairs(startAddr: nat)
    ensures PrintFat(startAddr) == PackPair(startAddr, startAddr + 1, false) + PackPair(startAddr + 2, startAddr + 3, true)
  {
    DriverShape();
    assert Pairs(startAddr, 4, 4) == [];
  }

  /** Placed after the header and padded to a block, the script's output is a
      FAT in which every file's start cluster leads to four consecutive
      clusters and an end-of-chain marker: 2-5, 6-9 and 10-13. */
  lemma ScriptChains(k: nat)
    requires k < NrEepromSlots
    ensures FollowChain([0xF8, 0xFF, 0xFF] + ScriptOutput() + Zeros(491), FileStart(k), MaxChain)
         == Complete(FileClusters(k))
  {
    ScriptMatchesTable();
    ChainOf(k);
  }

  /** Every pair of the script's output for a file decodes as printFAT meant:
      the even entry is the pair's current cluster value, the odd entry the
      next one, except on the file's last pair. */
  lemma PrintFatDecodes(startAddr: nat, p: nat)
    requires p < ClusterPerFile / 2
    ensures PairAt(PrintFat(startAddr), p, Low12(startAddr + 2 * p),
                   if p == ClusterPerFile / 2 - 1 then EndOfChain else Low12(startAddr + 2 * p + 1))
  {
    var odd := if p == ClusterPerFile / 2 - 1 then EndOfChain else Low12(startAddr + 2 * p + 1);
    assert OddValue(startAddr, 0, ClusterPerFile, p) == odd by {
      assert ClusterPerFile == 4;
    }
    PairsDecode(startAddr, 0, ClusterPerFile, p);
  }
}

=== FILE: flash.dfy ===
/** The flash commit primitive `writeEEPROMToFlash` (code/main.c:15-25).

    The SDK's `flash_range_erase` and `flash_range_program` are not part of
    this model; they are represented by the behaviour of NOR flash that they
    drive: erasing sets every byte of whole 4096-byte sectors to 0xFF, and
    programming whole 256-byte pages can only clear bits (the new byte is the
    old byte AND the data byte).  Both must run with interrupts disabled,
    since code fetched from flash while it is being erased would fault. */
module Flash {

  import opened Bytes

  const SectorSize: nat := 4096
  const PageSize: nat := 256

  /** Flash memory, indexed by offset from the start of flash, together with
      the processor's interrupt-enable bit. */
  datatype FlashState = FlashState(mem: nat -> Byte, irqEnabled: bool)

  /** `save_and_disable_interrupts`: returns the saved enable bit. */
  function SaveAndDisableInterrupts(fs: FlashState): (r: (FlashState, bool))
    ensures !r.0.irqEnabled && r.1 == fs.irqEnabled
    ensures r.0.mem == fs.mem
  {
    (fs.(irqEnabled := false), fs.irqEnabled)
  }

  /** `restore_interrupts`. */
  function RestoreInterrupts(fs: FlashState, saved: bool): (r: FlashState)
    ensures r.irqEnabled == saved && r.mem == fs.mem
  {
    fs.(irqEnabled := saved)
  }

  /** `flash_range_erase`: whole sectors, interrupts off. */
  function RangeErase(fs: FlashState, addr: nat, count: nat): (r: FlashState)
    requires !fs.irqEnabled
    requires addr % SectorSize == 0 && count % SectorSize == 0
    ensures forall a: nat :: addr <= a < addr + count ==> r.mem(a) == 0xFF
    ensures forall a: nat :: !(addr <= a < addr + count) ==> r.mem(a) == fs.mem(a)
    ensures r.irqEnabled == fs.irqEnabled
  {
    fs.(mem := (a: nat) => if addr <= a < addr + count then 0xFF else fs.mem(a))
  }

  /** `flash_range_program`: whole pages, interrupts off; programming can only
      clear bits. */
  function RangeProgram(fs: FlashState, addr: nat, data: seq<Byte>): (r: FlashState)
    requires !fs.irqEnabled
    requires addr % PageSize == 0 && |data| % PageSize == 0
    ensures forall a: nat :: addr <= a < addr + |data| ==> r.mem(a) == BitAnd(fs.mem(a), data[a - addr])
    ensures forall a: nat :: !(addr <= a < addr + |data|) ==> r.mem(a) == fs.mem(a)
    ensures r.irqEnabled == fs.irqEnabled
  {
    fs.(mem := (a: nat) => if addr <= a < addr + |data| then BitAnd(fs.mem(a), data[a - addr]) else fs.mem(a))
  }

  /** `writeEEPROMToFlash(eepromBuff, flashAddr, eepromSize)`: with interrupts
      disabled, erase and then program the same range from the first
      `eepromSize` bytes of the buffer, then restore the saved interrupt state.
      The range ends up holding exactly those bytes because the erase comes
      first; nothing outside the range changes. */
  function WriteEepromToFlash(fs: FlashState, eepromBuff: seq<Byte>, flashAddr: nat, eepromSize: nat): (r: FlashState)
    requires eepromSize <= |eepromBuff|
    requires flashAddr % SectorSize == 0 && eepromSize % SectorSize == 0
    ensures forall i :: 0 <= i < eepromSize ==> r.mem(flashAddr + i) == eepromBuff[i]
    ensures forall a: nat :: !(flashAddr <= a < flashAddr + eepromSize) ==> r.mem(a) == fs.mem(a)
    ensures r.irqEnabled == fs.irqEnabled
  {
    var (off, ints) := SaveAndDisableInterrupts(fs);
    var data := eepromBuff[..eepromSize];
    EraseThenProgram(off, flashAddr, data);
    RestoreInterrupts(RangeProgram(RangeErase(off, flashAddr, eepromSize), flashAddr, data), ints)
  }

  /** Programming a freshly erased range stores the data exactly. */
  lemma EraseThenProgram(fs: FlashState, addr: nat, data: seq<Byte>)
    requires !fs.irqEnabled
    requires addr % SectorSize == 0 && |data| % SectorSize == 0
    ensures addr % PageSize == 0 && |data| % PageSize == 0
    ensures forall i :: 0 <= i < |data| ==>
      RangeProgram(RangeErase(fs, addr, |data|), addr, data).mem(addr + i) == data[i]
  {
    SectorAlignedIsPageAligned(addr);
    SectorAlignedIsPageAligned(|data|);
    forall i | 0 <= i < |data|
      ensures RangeProgram(RangeErase(fs, addr, |data|), addr, data).mem(addr + i) == data[i]
    {
      ProgramErasedByte(RangeErase(fs, addr, |data|), addr, data, i);
    }
  }

  /** One byte of an erased range after programming. */
  lemma ProgramErasedByte(erased: FlashState, addr: nat, data: seq<Byte>, i: nat)
    requires !erased.irqEnabled && addr % PageSize == 0 && |data| % PageSize == 0
    requires i < |data| && erased.mem(addr + i) == 0xFF
    ensures RangeProgram(erased, addr, data).mem(addr + i) == data[i]
  {
    ProgramByte(erased, addr, data, i);
    ErasedAndData(data[i]);
  }

  lemma ProgramByte(fs: FlashState, addr: nat, data: seq<Byte>, i: nat)
    requires !fs.irqEnabled && addr % PageSize == 0 && |data| % PageSize == 0
    requires i < |data|
    ensures RangeProgram(fs, addr, data).mem(addr + i) == BitAnd(fs.mem(addr + i), data[i])
  {
  }

  /** A sector boundary is also a page boundary. */
  lemma SectorAlignedIsPageAligned(x: nat)
    requires x % SectorSize == 0
    ensures x % PageSize == 0
  {
    var k := x / SectorSize;
    assert x == PageSize * (16 * k);
  }

  /** Bitwise AND of two naturals, one bit at a time from the bottom. */
  function BitAnd(x: nat, y: nat): (r: nat)
    decreases x
    ensures r <= x && r <= y
  {
    if x == 0 || y == 0 then 0
    else 2 * BitAnd(x / 2, y / 2) + (if x % 2 == 1 && y % 2 == 1 then 1 else 0)
  }

  function Pow2(k: nat): (r: nat)
    ensures r >= 1
  {
    if k == 0 then 1 else 2 * Pow2(k - 1)
  }

  /** ANDing with a mask of k one-bits keeps any value below 2^k. */
  lemma {:induction false} MaskAnd(k: nat, d: nat)
    requires d < Pow2(k)
    ensures BitAnd(Pow2(k) - 1, d) == d
  {
    if d != 0 {
      assert k > 0;
      assert (Pow2(k) - 1) / 2 == Pow2(k - 1) - 1 && (Pow2(k) - 1) % 2 == 1;
      MaskAnd(k - 1, d / 2);
    }
  }

  /** An erased byte ANDed with data is the data. */
  lemma ErasedAndData(d: Byte)
    ensures BitAnd(0xFF, d) == d
  {
    assert Pow2(8) == 256;
    MaskAnd(8, d);
  }

  /** Programming without the preceding erase does not in general leave the
      data in flash: a programmed 0x00 byte cannot be raised back to 0x01. */
  lemma ProgramWithoutEraseCanFail()
    ensures exists fs: FlashState ::
      !fs.irqEnabled && RangeProgram(fs, 0, seq(PageSize, _ => 1)).mem(0) != 1
  {
    var fs := FlashState((a: nat) => 0, false);
    var r := RangeProgram(fs, 0, seq(PageSize, _ => 1));
    assert r.mem(0) == BitAnd(0, 1) == 0;
  }
}

=== FILE: image.dfy ===
/** Build-time constants of the drive (code/msc_disk.c:34-37, 49-53). */
module Layout {

  /** Size of one EEPROM slot, and of each file the drive presents. */
  const EepromSize: nat := 8192
  const NrEepromSlots: nat := 3

  /** `PICO_FLASH_SIZE_BYTES` comes from the board definition, which is not part
      of this model; 2 MiB is the RP2040 reference board's value.  Besides
      sector alignment, the proofs rely on it only through
      `MscDisk.CapacityFitsWindow`: every block the drive reports lies inside
      the 16 MiB XIP window only while it is at most 16 MiB - 39424. */
  const PicoFlashSizeBytes: nat := 0x20_0000

  /** Start of the XIP window through which the processor reads flash. */
  const XipBase: nat := 0x1000_0000

  /** Flash offset of slot 1: the slots occupy the top of flash. */
  const FlashAddr: nat := PicoFlashSizeBytes - NrEepromSlots * EepromSize

  /** Bus address at which slot 1 is read. */
  const BaseEepromAddr: nat := XipBase + FlashAddr

  /** What READ CAPACITY reports. */
  const DiskBlockNum: nat := 128
  const DiskBlockSize: nat := 512

  /** The first logical block that is backed by flash rather than by the table. */
  const FirstFlashLba: nat := 3

  /** Bytes of `writeBuffer`: room for two slot images. */
  const WriteBufferSize: nat := EepromSize * 2
}

/** The static table `msc_disk` that answers reads of logical blocks 0-2
    (code/msc_disk.c:56-160): a FAT12 boot sector, the FAT and the root
    directory.  Bytes a C initialiser leaves out are zero. */
module Image {
  import opened Bytes
  import opened Layout

  /** Bytes 0-10 of the boot sector: jump code and OEM name "MSDOS5.0". */
  const JumpAndOemName: seq<Byte> := [0xEB, 0x3C, 0x90, 0x4D, 0x53, 0x44, 0x4F, 0x53, 0x35, 0x2E, 0x30]

  /** Bytes 11-35: the BIOS parameter block.  512 bytes per sector, 4 sectors
      per cluster, 1 reserved sector, 1 FAT, 16 root entries, 0x2000 total
      sectors, media 0xF8, 1 sector per FAT, 1 sector per track, 1 head, no
      hidden sectors, no 32-bit sector count. */
  const BiosParameterBlock: seq<Byte> := [
    0x00, 0x02, 0x04, 0x01, 0x00, 0x01, 0x10, 0x00, 0x00, 0x20, 0xF8, 0x01, 0x00,
    0x01, 0x00, 0x01, 0x00, 0x00, 0x00, 0x00, 0x00, 0x00, 0x00, 0x00, 0x00]

  /** Bytes 36-61: drive number 0x80, extended boot signature 0x29, serial
      number 0x1234, volume label "TinyUSB MSC", file-system type "FAT12   ". */
  const ExtendedBootRecord: seq<Byte> := [
    0x80, 0x00, 0x29, 0x34, 0x12, 0x00, 0x00,
    0x54, 0x69, 0x6E, 0x79, 0x55, 0x53, 0x42, 0x20, 0x4D, 0x53, 0x43,
    0x46, 0x41, 0x54, 0x31, 0x32, 0x20, 0x20, 0x20]

  /** Bytes 0-61 of the boot sector. */
  const BootHeader: seq<Byte> := JumpAndOemName + BiosParameterBlock + ExtendedBootRecord

  /** Block 0: the boot sector, zero-filled up to the 0x55 0xAA signature. */
  const Block0: seq<Byte> := BootHeader + Zeros(448) + [0x55, 0xAA]

  /** The initialised part of block 1: media byte and reserved entry, then
      three cluster chains packed two 12-bit entries per three bytes. */
  const FatBytes: seq<Byte> := [
    0xF8, 0xFF, 0xFF,
    0x03, 0x40, 0x00, 0x05, 0xF0, 0xFF,
    0x07, 0x80, 0x00, 0x09, 0xF0, 0xFF,
    0x0B, 0xC0, 0x00, 0x0D, 0xF0, 0xFF]

  /** Block 1: the FAT. */
  const Block1: seq<Byte> := FatBytes + Zeros(491)

  /** Root directory entry 0: the volume label "PM2040". */
  const VolumeLabelEntry: seq<Byte> := [
    0x50, 0x4D, 0x32, 0x30, 0x34, 0x30, 0x20, 0x20, 0x20, 0x20, 0x20, 0x08, 0x00, 0x00, 0x00, 0x00,
    0x00, 0x00, 0x00, 0x00, 0x00, 0x00, 0x4F, 0x6D, 0x65, 0x43, 0x00, 0x00, 0x00, 0x00, 0x00, 0x00]

  /** Root directory entries 1-3: "EEPROM01.PME" .. "EEPROM03.PME", archive
      files of 0x2000 bytes starting at clusters 2, 6 and 10. */
  const FileEntry1: seq<Byte> := [
    0x45, 0x45, 0x50, 0x52, 0x4F, 0x4D, 0x30, 0x31, 0x50, 0x4D, 0x45, 0x20, 0x00, 0xC6, 0x52, 0x6D,
    0x65, 0x43, 0x65, 0x43, 0x00, 0x00, 0x88, 0x6D, 0x65, 0x43, 0x02, 0x00, 0x00, 0x20, 0x00, 0x00]
  const FileEntry2: seq<Byte> := [
    0x45, 0x45, 0x50, 0x52, 0x4F, 0x4D, 0x30, 0x32, 0x50, 0x4D, 0x45, 0x20, 0x00, 0xC6, 0x52, 0x6D,
    0x65, 0x43, 0x65, 0x43, 0x00, 0x00, 0x88, 0x6D, 0x65, 0x43, 0x06, 0x00, 0x00, 0x20, 0x00, 0x00]
  const FileEntry3: seq<Byte> := [
    0x45, 0x45, 0x50, 0x52, 0x4F, 0x4D, 0x30, 0x33, 0x50, 0x4D, 0x45, 0x20, 0x00, 0xC6, 0x52, 0x6D,
    0x65, 0x43, 0x65, 0x43, 0x00, 0x00, 0x88, 0x6D, 0x65, 0x43, 0x0A, 0x00, 0x00, 0x20, 0x00, 0x00]

  /** Block 2: the root directory. */
  const Block2: seq<Byte> := VolumeLabelEntry + FileEntry1 + FileEntry2 + FileEntry3 + Zeros(384)

  /** The whole table: five blocks, of which read10 only ever indexes 0-2. */
  const MscDisk: seq<seq<Byte>> := [Block0, Block1, Block2, Zeros(DiskBlockSize), Zeros(DiskBlockSize)]

  /** The table is five 512-byte sectors.  Block 0 ends in the boot
      signature; block 1 is the initialised FAT bytes followed by free
      entries; block 2 holds four directory entries and then zeros, so entry
      4 marks the end of the directory; blocks 3 and 4, which the initialiser
      leaves out, are all zero. */
  lemma TableShape()
    ensures |MscDisk| == 5
    ensures forall b :: 0 <= b < |MscDisk| ==> |MscDisk[b]| == DiskBlockSize
    ensures MscDisk[0][510 ..] == [0x55, 0xAA]
    ensures MscDisk[1][.. |FatBytes|] == FatBytes
    ensures forall i :: |FatBytes| <= i < DiskBlockSize ==> MscDisk[1][i] == 0
    ensures forall i :: 4 * 32 <= i < DiskBlockSize ==> MscDisk[2][i] == 0
    ensures forall b, i :: 3 <= b < |MscDisk| && 0 <= i < DiskBlockSize ==> MscDisk[b][i] == 0
  {
  }
}

=== FILE: mscdisk.dfy ===
/** The mass-storage callbacks of the drive (code/msc_disk.c:163-334) and the
    state they share.  Reads of blocks 0-2 are answered from the static table,
    reads of later blocks straight from flash; data writes are collected in a
    RAM buffer, and a write of the root-directory block commits the buffer to
    the first slot once exactly one slot's worth of bytes has arrived. */
module MscDisk {
  import opened Bytes
  import opened Layout
  import opened Image
  import opened Flash

  /** Sense data reported to the host after a failed command (section 4.5.6 of
      SCSI Primary Commands-3): sense key, additional sense code and its
      qualifier, as `tud_msc_set_sense` records them. */
  datatype Sense = NoSense | Sense(key: Byte, asc: Byte, ascq: Byte)

  const SenseNotReady: Byte := 0x02
  const SenseIllegalRequest: Byte := 0x05
  /** ASC 0x3A: medium not present. */
  const AscMediumNotPresent: Byte := 0x3A
  /** ASC 0x20: invalid command operation code. */
  const AscInvalidCommand: Byte := 0x20

  /** Operation code of PREVENT ALLOW MEDIUM REMOVAL. */
  const PreventAllowMediumRemoval: Byte := 0x1E

  /** Bytes of flash address space the XIP window maps. */
  const XipWindowSize: nat := 0x100_0000

  /** The firmware's globals: `writeBuffer`, `offsetCnt`, `didFlash`,
      `fullUSBWriteDone`, `ejected`, the sense data kept by the USB stack, and
      the flash the slots live in. */
  datatype Device = Device(
    writeBuffer: seq<Byte>,
    offsetCnt: U32,
    didFlash: bool,
    fullUSBWriteDone: U32,
    ejected: bool,
    sense: Sense,
    flash: FlashState)

  /** `writeBuffer` is a fixed array of two slots' size. */
  predicate Valid(d: Device)
  {
    |d.writeBuffer| == WriteBufferSize
  }

  /** The state after reset: C zero-initialises the globals; flash keeps
      whatever it held. */
  function Boot(flash: FlashState): (d: Device)
    ensures Valid(d) && d.flash == flash
    ensures d.offsetCnt == 0 && !d.didFlash && d.fullUSBWriteDone == 0 && !d.ejected
  {
    Device(Zeros(WriteBufferSize), 0, false, 0, false, NoSense, flash)
  }

  /** `tud_msc_test_unit_ready_cb`: ready until ejected; once ejected the unit
      reports NOT READY, medium not present. */
  function TestUnitReady(d: Device): (r: (Device, bool))
    ensures r.1 <==> !d.ejected
    ensures !d.ejected ==> r.0 == d
    ensures d.ejected ==> r.0 == d.(sense := Sense(SenseNotReady, AscMediumNotPresent, 0x00))
  {
    if d.ejected then (d.(sense := Sense(SenseNotReady, AscMediumNotPresent, 0x00)), false)
    else (d, true)
  }

  /** `tud_msc_capacity_cb`: the block count and size the host is told. */
  function Capacity(): (r: (U32, U16))
    ensures r.0 * r.1 == 0x1_0000
    ensures r.1 == ImageBlockSize()
  {
    (DiskBlockNum, DiskBlockSize)
  }

  /** The sector size the boot sector declares (bytes 11-12). */
  function ImageBlockSize(): (n: nat)
    ensures n == 512
  {
    LE16(Block0, 11)
  }

  /** `tud_msc_start_stop_cb`: only an unload request (load_eject with start
      clear) changes anything, and it sets the sticky `ejected` flag; a load
      request does not clear it.  Always succeeds. */
  function StartStop(d: Device, powerCondition: Byte, start: bool, loadEject: bool): (r: (Device, bool))
    ensures r.1
    ensures r.0.ejected <==> d.ejected || (loadEject && !start)
    ensures r.0 == d.(ejected := r.0.ejected)
  {
    if loadEject && !start then (d.(ejected := true), true) else (d, true)
  }

  /** Distance past slot 1 that `(lba - 3) * DISK_BLOCK_SIZE` computes: the
      product is taken in 32-bit unsigned arithmetic. */
  function BlockOffset(lba: U32): (off: U32)
    requires lba >= FirstFlashLba
    ensures ((lba - FirstFlashLba) * DiskBlockSize - off) % Two32 == 0
    ensures (lba - FirstFlashLba) * DiskBlockSize < Two32 ==> off == (lba - FirstFlashLba) * DiskBlockSize
  {
    ((lba - FirstFlashLba) * DiskBlockSize) % Two32
  }

  /** The bytes a read copies exist: a table read stays inside its 512-byte
      block (the firmware does not check this), and a flash read, which copies
      from bus address `BASEEEPROMADDR + (lba - 3) * 512 + offset`, stays
      inside the XIP window. */
  predicate ReadDefined(lba: U32, offset: U32, bufsize: U32)
  {
    if lba < FirstFlashLba then offset + bufsize <= DiskBlockSize
    else BaseEepromAddr + BlockOffset(lba) + offset + bufsize <= XipBase + XipWindowSize
  }

  /** `tud_msc_read10_cb`: the copied bytes and the returned count. */
  function Read10(d: Device, lba: U32, offset: U32, bufsize: U32): (r: (seq<Byte>, I32))
    requires ReadDefined(lba, offset, bufsize)
    ensures |r.0| == bufsize && r.1 == ToI32(bufsize)
    ensures lba < FirstFlashLba ==> r.0 == MscDisk[lba][offset .. offset + bufsize]
    ensures lba >= FirstFlashLba ==> forall i :: 0 <= i < bufsize ==>
      r.0[i] == d.flash.mem(FlashAddr + BlockOffset(lba) + offset + i)
  {
    if lba < FirstFlashLba then
      (MscDisk[lba][offset .. offset + bufsize], ToI32(bufsize))
    else
      (FlashBytes(d.flash, FlashAddr + BlockOffset(lba) + offset, bufsize), ToI32(bufsize))
  }

  /** The `n` flash bytes from offset `start`, as `memcpy` copies them. */
  function FlashBytes(fs: FlashState, start: nat, n: nat): (r: seq<Byte>)
    ensures |r| == n
    ensures forall i :: 0 <= i < n ==> r[i] == fs.mem(start + i)
  {
    seq<Byte>(n, (i: int) requires 0 <= i < n => fs.mem(start + i))
  }

  /** The reported capacity reaches 39424 bytes past the end of flash (125
      flash-backed blocks, of which only the first 48 are slots), so it stays
      inside the XIP window only while `PICO_FLASH_SIZE_BYTES + 39424` is at
      most 16 MiB.  The 2 MiB value of this model meets that; a 16 MiB chip
      would not, and reads of blocks 51 and later would leave the window. */
  lemma CapacityFitsWindow()
    ensures FlashAddr + (DiskBlockNum - FirstFlashLba) * DiskBlockSize == PicoFlashSizeBytes + 39424
    ensures PicoFlashSizeBytes + 39424 <= XipWindowSize
  {
  }

  /** Every read a host issues within the reported capacity, one block at a
      time, is defined, given the flash-size margin above. */
  lemma HostReadsDefined(lba: U32, offset: U32, bufsize: U32)
    requires lba < DiskBlockNum && offset + bufsize <= DiskBlockSize
    ensures ReadDefined(lba, offset, bufsize)
  {
    CapacityFitsWindow();
  }

  /** A directory write that commits: exactly one slot's worth of data has
      arrived and nothing has been committed since boot. */
  predicate Commits(d: Device, lba: U32)
  {
    lba == 2 && d.offsetCnt == EepromSize && !d.didFlash
  }

  /** The bytes a write copies fit: data written to blocks 3 and beyond is
      appended at `offsetCnt` with no bound check, so it must fit in the
      16384-byte buffer. */
  predicate WriteDefined(d: Device, lba: U32, data: seq<Byte>)
  {
    |data| < Two32 && (lba >= FirstFlashLba ==> d.offsetCnt + |data| <= WriteBufferSize)
  }

  /** `tud_msc_write10_cb` with `now` the millisecond clock when the commit
      completes (it is read after `writeEEPROMToFlash` returns).  Data
      blocks append to the buffer wherever the host meant them to go; a write
      of block 2 commits the first 8192 buffered bytes to slot 1 when exactly
      that many have arrived and no commit happened yet, and restarts the
      buffer either way; blocks 0 and 1 are ignored.  Returns the byte count. */
  function Write10(d: Device, lba: U32, offset: U32, data: seq<Byte>, now: U32): (r: (Device, I32))
    requires Valid(d) && WriteDefined(d, lba, data)
    ensures Valid(r.0) && r.1 == ToI32(|data|)
    ensures r.0.ejected == d.ejected && r.0.sense == d.sense
    ensures lba >= FirstFlashLba ==>
      && r.0.offsetCnt == d.offsetCnt + |data|
      && r.0.writeBuffer[d.offsetCnt .. r.0.offsetCnt] == data
      && r.0.writeBuffer[.. d.offsetCnt] == d.writeBuffer[.. d.offsetCnt]
      && r.0.writeBuffer[r.0.offsetCnt ..] == d.writeBuffer[r.0.offsetCnt ..]
      && r.0.didFlash == d.didFlash
    ensures lba == 2 ==> r.0.offsetCnt == 0 && r.0.writeBuffer == d.writeBuffer
    ensures lba == 2 ==> (r.0.didFlash <==> d.didFlash || Commits(d, lba))
    ensures Commits(d, lba) ==>
      && r.0.fullUSBWriteDone == now
      && r.0.flash.irqEnabled == d.flash.irqEnabled
      && (forall i :: 0 <= i < EepromSize ==> r.0.flash.mem(FlashAddr + i) == d.writeBuffer[i])
      && (forall a: nat :: !(FlashAddr <= a < FlashAddr + EepromSize) ==> r.0.flash.mem(a) == d.flash.mem(a))
    ensures !Commits(d, lba) ==> r.0.flash == d.flash && r.0.fullUSBWriteDone == d.fullUSBWriteDone
    ensures lba < 2 ==> r.0 == d
  {
    var d' :=
      if lba >= FirstFlashLba then
        var oc := d.offsetCnt;
        d.(writeBuffer := d.writeBuffer[.. oc] + data + d.writeBuffer[oc + |data| ..],
           offsetCnt := oc + |data|)
      else if lba == 2 then
        var committed :=
          if d.offsetCnt == EepromSize && !d.didFlash then
            d.(flash := WriteEepromToFlash(d.flash, d.writeBuffer, FlashAddr, EepromSize),
               fullUSBWriteDone := now,
               didFlash := true)
          else d;
        committed.(offsetCnt := 0)
      else d;
    (d', ToI32(|data|))
  }

  /** `tud_msc_scsi_cb`: PREVENT ALLOW MEDIUM REMOVAL succeeds with no data;
      every other command fails with ILLEGAL REQUEST, invalid command
      operation code, and a negative length.  The length is clamped to the
      host's buffer with a signed comparison, so the error length survives
      the clamp. */
  function Scsi(d: Device, scsiCmd: seq<Byte>, bufsize: U16): (r: (Device, I32))
    requires |scsiCmd| == 16
    ensures scsiCmd[0] == PreventAllowMediumRemoval ==> r == (d, 0)
    ensures scsiCmd[0] != PreventAllowMediumRemoval ==>
      r == (d.(sense := Sense(SenseIllegalRequest, AscInvalidCommand, 0x00)), -1)
    ensures r.1 <= bufsize
  {
    var (d', resplen) :=
      if scsiCmd[0] == PreventAllowMediumRemoval then (d, 0)
      else (d.(sense := Sense(SenseIllegalRequest, AscInvalidCommand, 0x00)), -1);
    var clamped := if resplen > bufsize then bufsize else resplen;
    (d', clamped)
  }
}

=== FILE: reboot.dfy ===
/** The reset decision in `main`'s loop (code/main.c:10-11, 42-46): once a
    commit has stamped `fullUSBWriteDone`, the board restarts more than 500 ms
    later so that the host sees the new slot contents after re-enumeration.
    The clock is a parameter; the watchdog reset itself is not modelled. */
module Reboot {
  import opened Bytes

  const EjectTimeMs: nat := 500

  /** Milliseconds since the commit, as unsigned 32-bit subtraction computes
      them: correct across one wrap of the millisecond counter. */
  function Elapsed(done: U32, now: U32): (e: U32)
    ensures (done + e) % Two32 == now
  {
    SubU32(now, done)
  }

  /** The loop's condition `fullUSBWriteDone && now - fullUSBWriteDone > 500`. */
  function ShouldReset(done: U32, now: U32): (r: bool)
    ensures done == 0 ==> !r
    ensures done != 0 && done <= now ==> (r <==> now - done > EjectTimeMs)
    ensures done != 0 && now < done ==> (r <==> now + Two32 - done > EjectTimeMs)
  {
    done != 0 && Elapsed(done, now) > EjectTimeMs
  }

  /** The bound is strict: exactly 500 ms after the commit there is no reset,
      one millisecond later there is, also when the clock wraps in between. */
  lemma StrictBound(done: U32)
    requires done != 0
    ensures !ShouldReset(done, (done + EjectTimeMs) % Two32)
    ensures ShouldReset(done, (done + EjectTimeMs + 1) % Two32)
  {
  }

  /** Only the elapsed time matters, not the absolute clock. */
  lemma ShiftInvariant(done: U32, now: U32, k: U32)
    requires done != 0 && (done + k) % Two32 != 0
    ensures ShouldReset(done, now) == ShouldReset((done + k) % Two32, (now + k) % Two32)
  {
    assert Elapsed(done, now) == Elapsed((done + k) % Two32, (now + k) % Two32);
  }
}

=== FILE: session.dfy ===
/** A host session: the commands the USB stack dispatches to the callbacks, in
    arrival order, each stamped with the millisecond clock.  Properties that
    span several callbacks (at most one commit per boot, the sticky eject,
    how data writes add up, what the host reads back) are stated over runs. */
module Session {
  import opened Bytes
  import opened Layout
  import opened Flash
  import opened Volume
  import opened MscDisk
  import opened Reboot

  /** The commands that reach a callback of this drive.  INQUIRY and the
      writability query carry no state and are not listed. */
  datatype Command =
    | ReadBlocks(lba: U32, offset: U32, bufsize: U32)
    | WriteBlocks(lba: U32, offset: U32, data: seq<Byte>)
    | TestReady
    | StartStopUnit(powerCondition: Byte, start: bool, loadEject: bool)
    | OtherCommand(opcode: Byte, allocLength: U16)
    | ReadCapacity

  datatype Event = Event(cmd: Command, now: U32)

  /** A run either continues with a device state or has written past the end
      of `writeBuffer`, after which the C program's behaviour is undefined and
      the model says nothing more. */
  datatype Outcome = Running(d: Device) | Undefined

  /** A write event that commits. */
  predicate StepCommits(d: Device, e: Event)
  {
    e.cmd.WriteBlocks? && Commits(d, e.cmd.lba)
  }

  /** One callback.  Reads and capacity queries leave the state alone. */
  function Step(d: Device, e: Event): (r: Outcome)
    requires Valid(d)
    ensures r.Undefined? <==> e.cmd.WriteBlocks? && !WriteDefined(d, e.cmd.lba, e.cmd.data)
    ensures r.Running? ==> Valid(r.d)
    ensures r.Running? ==> (d.didFlash ==> r.d.didFlash) && (d.ejected ==> r.d.ejected)
    ensures r.Running? && StepCommits(d, e) ==> r.d.didFlash
    ensures r.Running? ==> r.d.flash.irqEnabled == d.flash.irqEnabled
    ensures r.Running? && !StepCommits(d, e) ==>
      r.d.flash == d.flash && r.d.fullUSBWriteDone == d.fullUSBWriteDone
    ensures r.Running? && !d.ejected && r.d.ejected ==> e.cmd.StartStopUnit? && e.cmd.loadEject && !e.cmd.start
  {
    match e.cmd
    case WriteBlocks(lba, offset, data) =>
      if WriteDefined(d, lba, data) then Running(Write10(d, lba, offset, data, e.now).0) else Undefined
    case TestReady => Running(TestUnitReady(d).0)
    case StartStopUnit(p, s, l) => Running(MscDisk.StartStop(d, p, s, l).0)
    case OtherCommand(op, n) => Running(Scsi(d, [op] + Zeros(15), n).0)
    case ReadBlocks(_, _, _) => Running(d)
    case ReadCapacity => Running(d)
  }

  /** The callbacks applied in order.  Neither `didFlash` nor `ejected` is
      ever cleared, so both persist to the end of a run. */
  function Run(d: Device, es: seq<Event>): (r: Outcome)
    requires Valid(d)
    ensures r.Running? ==> Valid(r.d)
    ensures r.Running? ==> (d.didFlash ==> r.d.didFlash) && (d.ejected ==> r.d.ejected)
    decreases |es|
  {
    if es == [] then Running(d)
    else match Step(d, es[0])
      case Undefined => Undefined
      case Running(d') => Run(d', es[1..])
  }

  /** How many events of a run commit to flash. */
  function CommitCount(d: Device, es: seq<Event>): (n: nat)
    requires Valid(d)
    decreases |es|
  {
    if es == [] then 0
    else match Step(d, es[0])
      case Undefined => 0
      case Running(d') => (if StepCommits(d, es[0]) then 1 else 0) + CommitCount(d', es[1..])
  }

  /** `didFlash` is set by the commit and never cleared, so a run commits at
      most once, and not at all once a commit has happened. */
  lemma {:induction false} AtMostOneCommit(d: Device, es: seq<Event>)
    requires Valid(d)
    ensures CommitCount(d, es) <= if d.didFlash then 0 else 1
    decreases |es|
  {
    if es != [] {
      match Step(d, es[0])
      case Undefined =>
      case Running(d') =>
        AtMostOneCommit(d', es[1..]);
        if StepCommits(d, es[0]) {
          assert d'.didFlash;
        }
    }
  }

  /** Flash and the commit time stamp change only through a commit. */
  lemma {:induction false} NoCommitNoChange(d: Device, es: seq<Event>)
    requires Valid(d) && CommitCount(d, es) == 0 && Run(d, es).Running?
    ensures Run(d, es).d.flash == d.flash
    ensures Run(d, es).d.fullUSBWriteDone == d.fullUSBWriteDone
    decreases |es|
  {
    if es != [] {
      var d' := Step(d, es[0]).d;
      NoCommitNoChange(d', es[1..]);
    }
  }

  /** An eject is for good: Test Unit Ready keeps failing with NOT READY,
      medium not present, whatever the host sends afterwards. */
  lemma {:induction false} EjectIsSticky(d: Device, es: seq<Event>)
    requires Valid(d) && d.ejected && Run(d, es).Running?
    ensures Run(d, es).d.ejected
    ensures !TestUnitReady(Run(d, es).d).1
    ensures TestUnitReady(Run(d, es).d).0.sense == Sense(SenseNotReady, AscMediumNotPresent, 0x00)
    decreases |es|
  {
    if es != [] {
      EjectIsSticky(Step(d, es[0]).d, es[1..]);
    }
  }

  /** The only way into the ejected state is a START STOP UNIT that asks to
      unload. */
  lemma {:induction false} EjectNeedsUnload(d: Device, es: seq<Event>)
    requires Valid(d) && !d.ejected && Run(d, es).Running? && Run(d, es).d.ejected
    ensures exists i :: 0 <= i < |es| && es[i].cmd.StartStopUnit? && es[i].cmd.loadEject && !es[i].cmd.start
    decreases |es|
  {
    var d' := Step(d, es[0]).d;
    if d'.ejected {
      assert es[0].cmd.StartStopUnit?;
    } else {
      EjectNeedsUnload(d', es[1..]);
      var i :| 0 <= i < |es[1..]| && es[1..][i].cmd.StartStopUnit? && es[1..][i].cmd.loadEject && !es[1..][i].cmd.start;
      assert es[i + 1] == es[1..][i];
    }
  }

  /** Every event writes data blocks (block 3 or later). */
  predicate AllDataWrites(es: seq<Event>)
  {
    forall i :: 0 <= i < |es| ==> es[i].cmd.WriteBlocks? && es[i].cmd.lba >= FirstFlashLba
  }

  /** The data of a run of writes, concatenated in arrival order. */
  function Payload(es: seq<Event>): (p: seq<Byte>)
    requires AllDataWrites(es)
    decreases |es|
  {
    if es == [] then [] else es[0].cmd.data + Payload(es[1..])
  }

  /** Two appends in a row are one append of the concatenation. */
  lemma AppendTwice(d: Device, lba1: U32, off1: U32, a: seq<Byte>, lba2: U32, off2: U32, b: seq<Byte>, t1: U32, t2: U32)
    requires Valid(d) && lba1 >= FirstFlashLba && lba2 >= FirstFlashLba
    requires d.offsetCnt + |a| + |b| <= WriteBufferSize
    ensures WriteDefined(Write10(d, lba1, off1, a, t1).0, lba2, b)
    ensures Write10(Write10(d, lba1, off1, a, t1).0, lba2, off2, b, t2).0 == Write10(d, FirstFlashLba, 0, a + b, 0).0
  {
    var oc := d.offsetCnt;
    var d1 := Write10(d, lba1, off1, a, t1).0;
    var buf := d.writeBuffer;
    assert d1.writeBuffer == buf[.. oc] + a + buf[oc + |a| ..];
    var mid := d1.writeBuffer[oc + |a| ..];
    assert d1.writeBuffer[.. oc + |a|] == buf[.. oc] + a;
    assert mid[|b| ..] == buf[oc + |a| + |b| ..];
    assert buf[.. oc] + a + b + buf[oc + |a| + |b| ..] == buf[.. oc] + (a + b) + buf[oc + |a + b| ..];
  }

  /** Only the order in which data arrives matters: a run of data writes has
      the effect of one write of all their bytes, whatever blocks and offsets
      the host addressed them to. */
  lemma {:induction false} DataWritesAccumulate(d: Device, es: seq<Event>)
    requires Valid(d) && AllDataWrites(es) && d.offsetCnt + |Payload(es)| <= WriteBufferSize
    ensures Run(d, es) == Running(Write10(d, FirstFlashLba, 0, Payload(es), 0).0)
    decreases |es|
  {
    if es == [] {
      assert Write10(d, FirstFlashLba, 0, [], 0).0.writeBuffer == d.writeBuffer;
    } else {
      var e := es[0];
      assert AllDataWrites(es[1..]) by {
        forall i | 0 <= i < |es[1..]| ensures es[1..][i].cmd.WriteBlocks? && es[1..][i].cmd.lba >= FirstFlashLba {
          assert es[1..][i] == es[i + 1];
        }
      }
      var rest := Payload(es[1..]);
      var d1 := Write10(d, e.cmd.lba, e.cmd.offset, e.cmd.data, e.now).0;
      assert Step(d, e) == Running(d1);
      DataWritesAccumulate(d1, es[1..]);
      AppendTwice(d, e.cmd.lba, e.cmd.offset, e.cmd.data, FirstFlashLba, 0, rest, e.now, 0);
    }
  }

  /** A fresh boot, some data writes, then a write of the directory block at
      time `t`: the directory write commits exactly when the data came to 8192
      bytes, and then slot 1 holds those bytes and the time stamp is `t`;
      otherwise flash and the time stamp are as they were.  Either way the
      buffer count restarts at zero. */
  lemma SaveSequence(fs: FlashState, es: seq<Event>, dirBlock: seq<Byte>, t: U32)
    requires AllDataWrites(es) && |Payload(es)| <= WriteBufferSize && |dirBlock| < Two32
    ensures Run(Boot(fs), es + [Event(WriteBlocks(2, 0, dirBlock), t)]).Running?
    ensures var d := Run(Boot(fs), es + [Event(WriteBlocks(2, 0, dirBlock), t)]).d;
      && d.offsetCnt == 0
      && (d.didFlash <==> |Payload(es)| == EepromSize)
      && (|Payload(es)| == EepromSize ==>
            d.fullUSBWriteDone == t
            && forall i :: 0 <= i < EepromSize ==> d.flash.mem(FlashAddr + i) == Payload(es)[i])
      && (|Payload(es)| != EepromSize ==> d.flash == fs && d.fullUSBWriteDone == 0)
  {
    var b := Boot(fs);
    DataWritesAccumulate(b, es);
    var d1 := Write10(b, FirstFlashLba, 0, Payload(es), 0).0;
    var dir := Event(WriteBlocks(2, 0, dirBlock), t);
    RunAppend(b, es, dir);
    assert d1.writeBuffer[.. |Payload(es)|] == Payload(es);
    var d2 := Write10(d1, 2, 0, dirBlock, t).0;
    assert Step(d1, dir) == Running(d2);
    if |Payload(es)| == EepromSize {
      forall i | 0 <= i < EepromSize
        ensures d2.flash.mem(FlashAddr + i) == Payload(es)[i]
      {
        assert d1.writeBuffer[i] == d1.writeBuffer[.. |Payload(es)|][i];
      }
    }
  }

  /** A run extended by one event continues from where the run ended. */
  lemma {:induction false} RunAppend(d: Device, es: seq<Event>, e: Event)
    requires Valid(d) && Run(d, es).Running?
    ensures Run(d, es + [e]) == Step(Run(d, es).d, e)
    decreases |es|
  {
    if es == [] {
      assert [] + [e] == [e];
    } else {
      assert (es + [e])[0] == es[0] && (es + [e])[1..] == es[1..] + [e];
      RunAppend(Step(d, es[0]).d, es[1..], e);
    }
  }

  /** The commit needs exactly 8192 buffered bytes: a directory write with
      one byte more or one byte less leaves flash, the stamp and `didFlash` as
      they were, and only restarts the buffer count. */
  lemma OffByOneNoCommit(d: Device, n: U32, data: seq<Byte>, now: U32)
    requires Valid(d) && !d.didFlash && |data| < Two32
    requires n == EepromSize - 1 || n == EepromSize + 1
    ensures var r := Write10(d.(offsetCnt := n), 2, 0, data, now).0;
      r.flash == d.flash && r.fullUSBWriteDone == d.fullUSBWriteDone && !r.didFlash && r.offsetCnt == 0
    ensures var r := Write10(d.(offsetCnt := EepromSize), 2, 0, data, now).0;
      r.didFlash && r.fullUSBWriteDone == now && r.offsetCnt == 0
  {
  }

  /** Zero doubles as "no commit yet" for the main loop, so a save completing
      at millisecond 0 commits the data but never restarts the board. */
  lemma CommitAtZeroNeverResets(fs: FlashState, es: seq<Event>, dirBlock: seq<Byte>, now: U32)
    requires AllDataWrites(es) && |Payload(es)| == EepromSize && |dirBlock| < Two32
    ensures Run(Boot(fs), es + [Event(WriteBlocks(2, 0, dirBlock), 0)]).Running?
    ensures var d := Run(Boot(fs), es + [Event(WriteBlocks(2, 0, dirBlock), 0)]).d;
      d.didFlash && !ShouldReset(d.fullUSBWriteDone, now)
  {
    SaveSequence(fs, es, dirBlock, 0);
  }

  /** Reading byte i of file k where a host's FAT12 driver looks for it (the
      block the cluster chain gives, at offset i mod 512) returns the flash
      byte 8192 * k + i past the start of slot 1: file k is slot k + 1. */
  lemma FileReadsSlot(d: Device, k: nat, i: nat)
    requires k < NrEepromSlots && i < EepromSize
    ensures FileByteBlock(k, i) < DiskBlockNum
    ensures ReadDefined(FileByteBlock(k, i), i % DiskBlockSize, 1)
    ensures Read10(d, FileByteBlock(k, i), i % DiskBlockSize, 1).0 == [d.flash.mem(FlashAddr + EepromSize * k + i)]
  {
    FileByteLocation(k, i);
    var lba := FileByteBlock(k, i);
    assert lba < DiskBlockNum;
    assert BlockOffset(lba) == (lba - FirstFlashLba) * DiskBlockSize;
  }

  /** Whatever file the host saved, the commit lands in slot 1: after the
      save, file 0 reads back the saved bytes and files 1 and 2 are
      unchanged. */
  lemma SavedDataReadsBackAsFirstFile(fs: FlashState, es: seq<Event>, dirBlock: seq<Byte>, t: U32, k: nat, i: nat)
    requires AllDataWrites(es) && |Payload(es)| == EepromSize && |dirBlock| < Two32
    requires k < NrEepromSlots && i < EepromSize
    ensures Run(Boot(fs), es + [Event(WriteBlocks(2, 0, dirBlock), t)]).Running?
    ensures var d := Run(Boot(fs), es + [Event(WriteBlocks(2, 0, dirBlock), t)]).d;
      Read10(d, FileByteBlock(k, i), i % DiskBlockSize, 1).0
        == if k == 0 then [Payload(es)[i]] else [fs.mem(FlashAddr + EepromSize * k + i)]
  {
    SaveSequence(fs, es, dirBlock, t);
    var d := Run(Boot(fs), es + [Event(WriteBlocks(2, 0, dirBlock), t)]).d;
    FileReadsSlot(d, k, i);
    var b := Boot(fs);
    var d1 := Write10(b, FirstFlashLba, 0, Payload(es), 0).0;
    DataWritesAccumulate(b, es);
    RunAppend(b, es, Event(WriteBlocks(2, 0, dirBlock), t));
    assert Commits(d1, 2);
  }

  /** After a save at a non-zero time t, the main loop restarts the board
      501 ms later but not 500 ms later, counting across a wrap of the
      32-bit millisecond clock. */
  lemma SaveThenRestart(fs: FlashState, es: seq<Event>, dirBlock: seq<Byte>, t: U32)
    requires AllDataWrites(es) && |Payload(es)| == EepromSize && |dirBlock| < Two32
    requires t != 0
    ensures Run(Boot(fs), es + [Event(WriteBlocks(2, 0, dirBlock), t)]).Running?
    ensures var d := Run(Boot(fs), es + [Event(WriteBlocks(2, 0, dirBlock), t)]).d;
      && !ShouldReset(d.fullUSBWriteDone, (t + EjectTimeMs) % Two32)
      && ShouldReset(d.fullUSBWriteDone, (t + EjectTimeMs + 1) % Two32)
  {
    SaveSequence(fs, es, dirBlock, t);
  }

  /** Without a commit the board never restarts, however long it runs. */
  lemma NoSaveNoRestart(fs: FlashState, es: seq<Event>, now: U32)
    requires Run(Boot(fs), es).Running? && CommitCount(Boot(fs), es) == 0
    ensures !ShouldReset(Run(Boot(fs), es).d.fullUSBWriteDone, now)
  {
    NoCommitNoChange(Boot(fs), es);
  }
}

=== FILE: volume.dfy ===
/** The static table read as a host's FAT12 driver reads it: the boot sector's
    geometry places cluster 2 at logical block 3, the FAT holds three
    four-cluster chains, and the directory points the three files at them, so
    every byte of file k lands at byte offset 8192 * k + i of the slot region. */
module Volume {
  import opened Bytes
  import opened Layout
  import opened Image
  import opened Fat12

  /** The BPB as the table's bytes encode it.  The 16-bit total-sector field
      is 0x2000 (8192), not the 128 blocks READ CAPACITY reports, and a cluster
      is four sectors. */
  const ImageBpb: Bpb := Bpb(512, 4, 1, 1, 16, 0x2000, 0xF8, 1, 0)

  const BytesPerCluster: nat := 512 * 4

  /** The boot sector ends in the 0x55 0xAA signature, decodes to ImageBpb,
      and that geometry puts the data region, and so cluster 2, at block 3. */
  lemma BootSector()
    ensures |Block0| == DiskBlockSize
    ensures Block0[510] == 0x55 && Block0[511] == 0xAA
    ensures ParseBpb(Block0) == ImageBpb
    ensures Usable(ImageBpb) && FirstDataSector(ImageBpb) == FirstFlashLba
    ensures ClusterToSector(ImageBpb, 2) == FirstFlashLba
    ensures ImageBpb.bytsPerSec == DiskBlockSize
    ensures ImageBpb.bytsPerSec * ImageBpb.secPerClus == BytesPerCluster
  {
    assert LE16(Block0, 11) == 512;
    assert LE16(Block0, 14) == 1;
    assert LE16(Block0, 17) == 16;
    assert LE16(Block0, 19) == 0x2000;
    assert LE16(Block0, 22) == 1;
    assert LE32(Block0, 32) == 0 by {
      assert LE16(Block0, 32) == 0 && LE16(Block0, 34) == 0;
    }
  }

  /** The declared sector count disagrees with the 128 blocks the drive
      reports.  Both counts select FAT12 (fewer than 4085 clusters), but only
      the reported one fits the one-sector FAT: that FAT holds entries 0-340,
      enough for the 31 clusters of 128 sectors (numbered up to 32) and not
      for the 2047 clusters of 0x2000 sectors (numbered up to 2048). */
  lemma SectorCounts()
    ensures TotalSectors(ParseBpb(Block0)) == 0x2000
    ensures TotalSectors(ParseBpb(Block0)) != DiskBlockNum
    ensures Usable(ImageBpb) && CountOfClusters(ImageBpb) == 2047 < MaxChain
    ensures CountOfClusters(ImageBpb.(totSec16 := DiskBlockNum)) == 31
    ensures |Block1| == ImageBpb.fatSz16 * ImageBpb.bytsPerSec
    ensures HasEntry(Block1, 340) && !HasEntry(Block1, 341)
    ensures !HasEntry(Block1, CountOfClusters(ImageBpb) + 1)
    ensures HasEntry(Block1, CountOfClusters(ImageBpb.(totSec16 := DiskBlockNum)) + 1)
  {
    BootSector();
  }

  /** Start cluster of file k (0-based) as the directory declares it. */
  function FileStart(k: nat): nat
  {
    2 + 4 * k
  }

  /** The directory: a volume label "PM2040", then three archive files of
      EepromSize bytes starting at clusters 2, 6 and 10. */
  lemma RootDirectory()
    ensures |Block2| == DiskBlockSize
    ensures ParseDirEntry(Block2, 0).attr == AttrVolumeId
    ensures IsSlotFile(DirectoryFile(0), 0)
    ensures IsSlotFile(DirectoryFile(1), 1)
    ensures IsSlotFile(DirectoryFile(2), 2)
  {
    VolumeLabel();
    FirstFile();
    SecondFile();
    ThirdFile();
  }

  /** The directory entry of file k (0-based), after the volume label. */
  function DirectoryFile(k: nat): DirEntry
    requires k < NrEepromSlots
  {
    ParseDirEntry(Block2, k + 1)
  }

  lemma VolumeLabel()
    ensures |Block2| == DiskBlockSize
    ensures ParseDirEntry(Block2, 0).attr == AttrVolumeId
  {
    EntryInBlock(Block2, 0, VolumeLabelEntry);
  }

  /** An archive file of one slot's size starting at file k's cluster. */
  predicate IsSlotFile(e: DirEntry, k: nat)
  {
    e.attr == AttrArchive && e.firstCluster == FileStart(k) && e.fileSize == EepromSize
  }

  lemma FirstFile()
    ensures IsSlotFile(DirectoryFile(0), 0)
  {
    EntryInBlock(Block2, 1, FileEntry1);
  }

  lemma SecondFile()
    ensures IsSlotFile(DirectoryFile(1), 1)
  {
    EntryInBlock(Block2, 2, FileEntry2);
  }

  lemma ThirdFile()
    ensures IsSlotFile(DirectoryFile(2), 2)
  {
    EntryInBlock(Block2, 3, FileEntry3);
  }

  /** A directory entry decodes the same wherever its 32 bytes sit. */
  lemma EntryInBlock(dir: seq<Byte>, i: nat, e: seq<Byte>)
    requires 32 * (i + 1) <= |dir| && |e| == 32
    requires dir[32 * i .. 32 * i + 32] == e
    ensures ParseDirEntry(dir, i) == ParseDirEntry(e, 0)
  {
    var o := 32 * i;
    assert forall j :: 0 <= j < 32 ==> dir[o + j] == e[j];
    assert dir[o .. o + 11] == e[..11];
  }

  /** The four clusters of file k. */
  function FileClusters(k: nat): (cs: seq<nat>)
    ensures |cs| == 4
    ensures forall m :: 0 <= m < 4 ==> cs[m] == FileStart(k) + m
  {
    [FileStart(k), FileStart(k) + 1, FileStart(k) + 2, FileStart(k) + 3]
  }

  /** Following the FAT from each file's start cluster visits four consecutive
      clusters and ends; four clusters of 2048 bytes are the declared size. */
  lemma FatChains()
    ensures FollowChain(Block1, FileStart(0), MaxChain) == Complete(FileClusters(0))
    ensures FollowChain(Block1, FileStart(1), MaxChain) == Complete(FileClusters(1))
    ensures FollowChain(Block1, FileStart(2), MaxChain) == Complete(FileClusters(2))
    ensures |FileClusters(0)| * BytesPerCluster == EepromSize
  {
    ChainOf(0);
    ChainOf(1);
    ChainOf(2);
  }

  /** The twelve FAT entries the three chains use. */
  lemma FatEntries()
    ensures forall n :: 2 <= n < 14 ==> HasEntry(Block1, n)
    ensures FatEntry(Block1, 2) == 3 && FatEntry(Block1, 3) == 4
    ensures FatEntry(Block1, 4) == 5 && FatEntry(Block1, 5) == EndOfChain
    ensures FatEntry(Block1, 6) == 7 && FatEntry(Block1, 7) == 8
    ensures FatEntry(Block1, 8) == 9 && FatEntry(Block1, 9) == EndOfChain
    ensures FatEntry(Block1, 10) == 11 && FatEntry(Block1, 11) == 12
    ensures FatEntry(Block1, 12) == 13 && FatEntry(Block1, 13) == EndOfChain
  {
    assert Block1[..21] == FatBytes;
  }

  /** One link of a chain: a non-final entry prepends its cluster. */
  lemma FollowLink(fat: seq<Byte>, c: nat, fuel: nat, rest: seq<nat>)
    requires fuel > 0 && c >= 2 && HasEntry(fat, c) && !IsEndOfChain(FatEntry(fat, c))
    requires FollowChain(fat, FatEntry(fat, c), fuel - 1) == Complete(rest)
    ensures FollowChain(fat, c, fuel) == Complete([c] + rest)
  {
  }

  lemma ChainOf(k: nat)
    requires k < NrEepromSlots
    ensures FollowChain(Block1, FileStart(k), MaxChain) == Complete(FileClusters(k))
  {
    FatEntries();
    if k == 0 {
      FollowLast(Block1, 5, MaxChain - 3);
      FollowLink(Block1, 4, MaxChain - 2, [5]);
      FollowLink(Block1, 3, MaxChain - 1, [4, 5]);
      FollowLink(Block1, 2, MaxChain, [3, 4, 5]);
    } else if k == 1 {
      FollowLast(Block1, 9, MaxChain - 3);
      FollowLink(Block1, 8, MaxChain - 2, [9]);
      FollowLink(Block1, 7, MaxChain - 1, [8, 9]);
      FollowLink(Block1, 6, MaxChain, [7, 8, 9]);
    } else if k == 2 {
      FollowLast(Block1, 13, MaxChain - 3);
      FollowLink(Block1, 12, MaxChain - 2, [13]);
      FollowLink(Block1, 11, MaxChain - 1, [12, 13]);
      FollowLink(Block1, 10, MaxChain, [11, 12, 13]);
    }
  }

  /** The last link of a chain: an end-of-chain entry. */
  lemma FollowLast(fat: seq<Byte>, c: nat, fuel: nat)
    requires fuel > 0 && c >= 2 && HasEntry(fat, c) && IsEndOfChain(FatEntry(fat, c))
    ensures FollowChain(fat, c, fuel) == Complete([c])
  {
  }

  /** Logical block that holds byte i of file k, as a host computes it. */
  function FileByteBlock(k: nat, i: nat): (lba: nat)
    requires k < NrEepromSlots && i < EepromSize
  {
    ClusterToSector(ImageBpb, FileClusters(k)[i / BytesPerCluster]) + (i % BytesPerCluster) / DiskBlockSize
  }

  /** Byte i of file k sits in a flash-backed block, at the position whose
      distance from the start of block 3 is 8192 * k + i: the files are laid
      end to end over the slot region. */
  lemma FileByteLocation(k: nat, i: nat)
    requires k < NrEepromSlots && i < EepromSize
    ensures FileByteBlock(k, i) >= FirstFlashLba
    ensures (FileByteBlock(k, i) - FirstFlashLba) * DiskBlockSize + i % DiskBlockSize == EepromSize * k + i
  {
    var m := i / BytesPerCluster;
    var s := (i % BytesPerCluster) / DiskBlockSize;
    var b := i % DiskBlockSize;
    assert i == BytesPerCluster * m + DiskBlockSize * s + b;
    assert FileByteBlock(k, i) == FirstFlashLba + 16 * k + 4 * m + s;
  }
}
